=== FILE: README.md ===
# Falling-block game core in Dafny

A model of the simulation core of a small browser Tetris written in Python
(`tetris.py`): the 10×20 board of colours with `Black` as the empty cell, the
seven-piece shape catalogue, piece translation and clockwise rotation, the
collision test, merging a locked piece, clearing full rows, and one frame of
the main loop (prioritised key handling with undo, gravity, lock, scoring,
spawning and game over).

Modules, one per component of the program:

- `Grid` (`grid.dfy`): board dimensions, colours and palette, `CreateGrid`, single-cell writes.
- `Tetromino` (`tetromino.dfy`): shapes, the catalogue, `Spawn`, `Move`, `Rotate` and the rotation-group lemmas.
- `Collision` (`collision.dfy`): the collision scan `Collides` and the stamping `Merge`.
- `LineClear` (`line_clear.dfy`): the row-clearing loop as the program runs it, proved equal to its declarative result.
- `GameLoop` (`game_loop.dfy`): game state, input handling, gravity, lock, one frame, and a run of frames.

Environment inputs become parameters: the held keys are a `set<string>` of
key codes, the elapsed-time test is a boolean "gravity tick", and the two
random draws of a new piece are a shape index and a colour index.

The lock step in the code moves the piece down, finds a collision, and moves
it back up before merging. The model keeps that sequence and proves that the
piece merged is exactly the piece before the fall. The blocked-rotation
revert (three more quarter turns) is proved to restore the previous shape
exactly, not approximately.

## Model

| member | source | states |
|---|---|---|
| Grid.CreateGrid | tetris.py:80-81 | the new board has `GRID_HEIGHT` rows of `GRID_WIDTH` cells and every cell is `Black` |
| Grid.SetCell | tetris.py:111 | writing one cell sets that cell to the colour, keeps the board's dimensions, and leaves every other cell unchanged |
| Grid.BlankRow | tetris.py:117 | the row inserted on a clear is `GRID_WIDTH` empty cells and so is never a full row |
| Tetromino.ZipLength | tetris.py:78 | the number of rows `zip` yields is the length of the shortest shape row (none for a shape with no rows), which for a rectangular shape is its width |
| Tetromino.Rotate | tetris.py:77-78 | a quarter turn maps an h×w shape to a w×h shape, and a rectangular shape stays rectangular |
| Tetromino.RotateMovesCells | tetris.py:77-78 | a quarter turn carries cell (i, j) of an h-row shape to cell (j, h-1-i), so a shape with an occupied cell keeps one |
| Tetromino.HalfTurn | tetris.py:77-78 | two quarter turns reverse both the row order and the column order |
| Tetromino.FullTurn | tetris.py:77-78 | four quarter turns give back the original shape |
| Tetromino.ThreeTurnsUndoOne | tetris.py:145-148 | a turn followed by three more restores the previous shape, which is what the blocked-rotation revert relies on |
| Tetromino.Move | tetris.py:73-75 | translation shifts the position by exactly (dx, dy) and never changes shape or colour |
| Tetromino.MoveUndo | tetris.py:133-143 | moving by (dx, dy) then by (-dx, -dy) restores the piece exactly |
| Tetromino.RotatePiece | tetris.py:77-78 | rotating a piece turns only its shape, keeping colour and position, and a rectangular h×w shape becomes a w×h one |
| Tetromino.RotatePieceTimes | tetris.py:147-148 | repeated piece rotation only turns the shape, keeping colour and position |
| Tetromino.CellCount | tetris.py:54-62 | the cell count is zero exactly when the shape has no occupied cell |
| Tetromino.CatalogueShapes | tetris.py:54-62 | every catalogue entry is rectangular, at most 2 rows by 4 columns, with exactly 4 occupied cells |
| Tetromino.TwoRowCells | tetris.py:56-61 | each two-row catalogue entry has four occupied cells across its two rows |
| Tetromino.Spawn | tetris.py:64-71 | a new piece has a catalogue shape and a palette colour other than `Black`, sits in row 0 inside both walls, and is centred: the gap on its left exceeds the gap on its right by 0 or 1 columns |
| Collision.RowCollides | tetris.py:99-104 | the scan along one shape row reports a hit exactly when some occupied cell at or after the start is blocked |
| Collision.RowsCollide | tetris.py:98-105 | the scan over the remaining shape rows reports a hit exactly when some occupied cell in them is blocked |
| Collision.Collides | tetris.py:97-105 | the collision test is true exactly when some occupied cell is left of the board, right of it, below it, or on a non-`Black` cell, reading the board only in range; the per-cell four-way test is `Collision.Blocked` |
| Collision.FreeFits | tetris.py:97-105 | a piece that does not collide lies wholly on the board and covers only empty cells |
| Collision.StampRow | tetris.py:109-111 | stamping one shape row colours exactly its remaining occupied cells and leaves every other cell unchanged |
| Collision.StampRows | tetris.py:108-111 | stamping the remaining shape rows colours exactly their occupied cells and leaves every other cell unchanged |
| Collision.Merge | tetris.py:107-111 | merging sets exactly the cells under the piece to its colour and leaves all other cells unchanged |
| Collision.MergedPieceCollides | tetris.py:107-111 | after merging, the same piece collides with the board, because palette colours are never `Black` |
| LineClear.FullRowIndices | tetris.py:114 | the list holds exactly the indices of full rows (rows with no `Black` cell, `Grid.IsFull`), in strictly ascending order |
| LineClear.ClearLoop | tetris.py:115-117 | running the delete-row, insert-empty-row-on-top step once per listed index keeps the board's height |
| LineClear.CountFull | tetris.py:114 | the number of full rows is zero exactly when no row is full |
| LineClear.NonFullRows | tetris.py:114 | every kept row is a non-full row of the board, and exactly as many rows are kept as there are rows that are not full |
| LineClear.NonFullAppend | tetris.py:113-118 | the rows kept from a board split in two are the rows kept from the upper part followed by those kept from the lower part |
| LineClear.DeleteAndInsert | tetris.py:116-117 | deleting row i and inserting an empty row on top shifts rows above i down by one and leaves rows below i in place |
| LineClear.ClearLoopIsFilter | tetris.py:115-117 | running the delete/insert step over strictly ascending indices yields one empty row per index followed by the unlisted rows in order |
| LineClear.LoopMatchesFilter | tetris.py:113-118 | the loop over the collected full rows yields `k` empty rows followed by the non-full rows in their original order, where `k` is the number of full rows |
| LineClear.RemoveFullRows | tetris.py:113-118 | returns the number of full rows; the board keeps its height, its top `k` rows are empty, the rest are the non-full rows in order, and with no full row the board is unchanged |
| LineClear.SurvivorShift | tetris.py:113-118 | each row that is not full moves down by exactly the number of full rows beneath it |
| LineClear.ClearIsIdempotent | tetris.py:113-118 | clearing a freshly cleared board returns 0 and changes nothing |
| GameLoop.SpawnOnEmptyBoard | tetris.py:66-71 | every catalogue piece spawned on an empty board is collision-free |
| GameLoop.NewGame | tetris.py:121-125 | the starting game has an empty board, a score of 0 and a collision-free piece |
| GameLoop.TryMove | tetris.py:132-143 | a move that would collide is undone and leaves the piece as it was, one that would not is kept, and a collision-free piece stays collision-free |
| GameLoop.TryRotate | tetris.py:144-148 | a rotation that would collide is reverted to the previous piece exactly, one that would not is kept, and a collision-free piece stays collision-free |
| GameLoop.HandleInput | tetris.py:131-148 | input handling keeps the running-game invariant and never changes the board or the score; which move each key makes is stated by `GameLoop.InputPriority` |
| GameLoop.InputPriority | tetris.py:131-148 | the first held key among left, right, down, up is the one applied: left, right and down shift the piece by (-1, 0), (1, 0) and (0, 1), up turns it a quarter clockwise, and a result that collides leaves the piece as it was; the other held keys have no effect, and a frame with none of them held changes nothing |
| GameLoop.Locked | tetris.py:153-154 | the board with the locked piece merged is well formed and collides with that piece |
| GameLoop.Lock | tetris.py:153-160 | a lock adds exactly 100 per full row of the merged board, leaves the cleared board, spawns the drawn piece, and ends the game exactly when that piece collides |
| GameLoop.Gravity | tetris.py:150-160 | a tick drops the piece one row when it has room and otherwise locks it where it was; the game ends only on a lock |
| GameLoop.Frame | tetris.py:128-161 | a frame applies the held keys and then, on a gravity tick, drops the handled piece one row when it has room; without a tick the piece is the handled piece and board and score are untouched; the game ends exactly on a tick whose handled piece lands and whose newly spawned piece collides with the resulting board; a running game stays valid, the board stays well formed, and the score never decreases |
| GameLoop.Play | tetris.py:128-160 | over any sequence of frames the active piece never collides while the game runs, the score never decreases, and the game ends only on a gravity tick |

## Left out

- The canvas wrapper `PyGameWeb` (tetris.py:4-20): DOM context and key listeners; the held keys are a parameter instead.
- The `Clock` class and the `fall_time`/`fall_speed` accumulation (tetris.py:22-33, 123-129, 150, 161): asynchronous sleeps and float milliseconds; a boolean gravity tick per frame replaces them. As written, `Clock.tick` always returns 0: `asyncio.sleep` yields `None`, so `last_tick` never leaves `None` and every call takes the first-call branch (tetris.py:27-29). `fall_time` thus stays 0 and the gravity branch at tetris.py:150 never fires, so the source never reaches the fall and lock path. The free gravity tick over-approximates this; every property stated for that path holds whether or not it is reached.
- The two `random.choice` draws of a new piece (tetris.py:68-69): the chosen shape and colour indices are parameters.
- Rendering: `draw_grid`, `draw_tetromino`, `clearRect`, `BLOCK_SIZE` and the screen dimensions (tetris.py:36, 39-40, 83-95, 163-165), and the cooperative `await asyncio.sleep(0)` (tetris.py:167): drawing and scheduling only.
- The game-over `print` (tetris.py:159): the final score is carried in the `GameOver` outcome instead.
- The undefined global `pygame` read by the loop (tetris.py:131, 163): the loop reads a name that nothing defines, so as written it would stop with a `NameError`; this concerns how the page is set up, not the rules of play.
- Collision.Collides: requires `y >= 0`. The code has no guard for a shape cell above the top row, where Python would wrap a negative row index round to the bottom of the board; the model excludes negative rows instead. `GameLoop.Valid` carries `y >= 0` as part of the running-game invariant: a new piece starts in row 0, and the only move that lowers `y` is the move back after a blocked fall or soft drop.
- Collision.Merge: requires every occupied cell to lie on the board, where Python would raise or wrap an index; the game only merges a piece that did not collide, which is proved to fit.

=== FILE: collision.dfy ===
/**
 Testing a piece against the board, and stamping a locked piece into it.
 Shape cell (i, j) of piece p lands on board row `p.y + i`, column `p.x + j`.
 */
module Collision {
  import opened Grid
  import opened Tetromino

  /**
   Whether the occupied cell (i, j) of `p` is blocked: left of column 0, right
   of the last column, below the bottom row, or on a non-empty board cell.
   The board is only read once the column and row are known to be in range.
   */
  predicate Blocked(p: Piece, g: Board, i: nat, j: nat)
    requires WellFormed(g) && p.y >= 0
  {
    p.x + j < 0 || p.x + j >= Width || p.y + i >= Height || g[p.y + i][p.x + j] != Black
  }

  /** Some occupied cell of the piece is blocked: the declarative reading of a collision. */
  ghost predicate Overlaps(p: Piece, g: Board)
    requires WellFormed(g) && p.y >= 0
  {
    exists i: nat, j: nat :: Occupied(p.shape, i, j) && Blocked(p, g, i, j)
  }

  /** Scans cells j, j+1, ... of shape row i, stopping at the first blocked one. */
  function RowCollides(p: Piece, g: Board, i: nat, j: nat): (hit: bool)
    requires WellFormed(g) && p.y >= 0
    requires i < |p.shape| && j <= |p.shape[i]|
    ensures hit <==> exists j': nat :: j <= j' && Occupied(p.shape, i, j') && Blocked(p, g, i, j')
    decreases |p.shape[i]| - j
  {
    if j == |p.shape[i]| then false
    else if p.shape[i][j] && Blocked(p, g, i, j) then true
    else RowCollides(p, g, i, j + 1)
  }

  /** Scans shape rows i, i+1, ... in order, stopping at the first blocked cell. */
  function RowsCollide(p: Piece, g: Board, i: nat): (hit: bool)
    requires WellFormed(g) && p.y >= 0
    requires i <= |p.shape|
    ensures hit <==> exists i': nat, j: nat :: i <= i' && Occupied(p.shape, i', j) && Blocked(p, g, i', j)
    decreases |p.shape| - i
  {
    if i == |p.shape| then false
    else if RowCollides(p, g, i, 0) then true
    else RowsCollide(p, g, i + 1)
  }

  /**
   The game's collision test: true exactly when some occupied cell lies
   outside the side or bottom walls or on an occupied board cell.
   Rows above the board (negative `y`) are excluded by the precondition.
   */
  function Collides(p: Piece, g: Board): (hit: bool)
    requires WellFormed(g) && p.y >= 0
    ensures hit <==> Overlaps(p, g)
  {
    RowsCollide(p, g, 0)
  }

  /** Every occupied cell of the piece lies on the board. */
  ghost predicate Fits(p: Piece) {
    p.y >= 0 && forall i, j :: Occupied(p.shape, i, j) ==> 0 <= p.x + j < Width && p.y + i < Height
  }

  /** Whether board cell (r, c) lies under an occupied cell of the piece. */
  predicate Covers(p: Piece, r: int, c: int) {
    Occupied(p.shape, r - p.y, c - p.x)
  }

  /** A piece that does not collide lies on the board, over empty cells only. */
  lemma FreeFits(p: Piece, g: Board)
    requires WellFormed(g) && p.y >= 0 && !Collides(p, g)
    ensures Fits(p)
    ensures forall r, c :: 0 <= r < Height && 0 <= c < Width && Covers(p, r, c) ==> g[r][c] == Black
  {
    forall r, c | 0 <= r < Height && 0 <= c < Width && Covers(p, r, c)
      ensures g[r][c] == Black
    {
      var i: nat, j: nat := r - p.y, c - p.x;
      assert Occupied(p.shape, i, j);
    }
  }

  /** Stamps the occupied cells j, j+1, ... of shape row i with the piece's colour. */
  function StampRow(g: Board, p: Piece, i: nat, j: nat): (g': Board)
    requires WellFormed(g) && Fits(p)
    requires i < |p.shape| && j <= |p.shape[i]|
    ensures WellFormed(g')
    ensures forall r, c :: 0 <= r < Height && 0 <= c < Width ==>
      g'[r][c] == if Covers(p, r, c) && r == p.y + i && c - p.x >= j then p.color else g[r][c]
    decreases |p.shape[i]| - j
  {
    if j == |p.shape[i]| then g
    else if p.shape[i][j] then
      assert Occupied(p.shape, i, j);
      StampRow(SetCell(g, p.y + i, p.x + j, p.color), p, i, j + 1)
    else StampRow(g, p, i, j + 1)
  }

  /** Stamps shape rows i, i+1, ... in order. */
  function StampRows(g: Board, p: Piece, i: nat): (g': Board)
    requires WellFormed(g) && Fits(p)
    requires i <= |p.shape|
    ensures WellFormed(g')
    ensures forall r, c :: 0 <= r < Height && 0 <= c < Width ==>
      g'[r][c] == if Covers(p, r, c) && r - p.y >= i then p.color else g[r][c]
    decreases |p.shape| - i
  {
    if i == |p.shape| then g
    else StampRows(StampRow(g, p, i, 0), p, i + 1)
  }

  /**
   Locks a piece into the board: exactly the cells under the piece's occupied
   cells take its colour, and every other cell keeps its old contents.
   */
  function Merge(g: Board, p: Piece): (g': Board)
    requires WellFormed(g) && Fits(p)
    ensures WellFormed(g')
    ensures forall r, c :: 0 <= r < Height && 0 <= c < Width && Covers(p, r, c) ==> g'[r][c] == p.color
    ensures forall r, c :: 0 <= r < Height && 0 <= c < Width && !Covers(p, r, c) ==> g'[r][c] == g[r][c]
  {
    StampRows(g, p, 0)
  }

  /** Once merged, a piece with a cell and a non-empty colour collides with itself. */
  lemma MergedPieceCollides(g: Board, p: Piece)
    requires WellFormed(g) && Fits(p)
    requires p.color != Black && HasCell(p.shape)
    ensures Collides(p, Merge(g, p))
  {
    var i, j :| Occupied(p.shape, i, j);
    assert Covers(p, p.y + i, p.x + j);
  }
}

=== FILE: game_loop.dfy ===
/**
 One frame of the game: the held keys are interpreted by priority, then, on a
 gravity tick, the piece falls one row or locks. Locking merges the piece,
 clears full rows, scores them, and spawns the next piece; the game is over
 when that piece has no room.
 */
module GameLoop {
  import opened Grid
  import opened Tetromino
  import opened Collision
  import opened LineClear

  /** Key codes the game reacts to; any other held key is ignored. */
  const ArrowLeft: string := "ArrowLeft"
  const ArrowRight: string := "ArrowRight"
  const ArrowDown: string := "ArrowDown"
  const ArrowUp: string := "ArrowUp"

  /** Points awarded for each row cleared by one lock. */
  const PointsPerRow: nat := 100

  datatype Game = Game(board: Board, piece: Piece, score: nat)

  /** The result of a frame: play continues, or the freshly spawned piece had no room. */
  datatype Outcome = Running(game: Game) | GameOver(game: Game)

  /**
   The invariant of a running game: a board of the right size, and an active
   piece in the board's rows, of a visible colour, with a rectangular shape
   holding at least one cell, that does not collide.
   */
  ghost predicate Valid(s: Game) {
    && WellFormed(s.board)
    && s.piece.y >= 0
    && s.piece.color != Black
    && WellShaped(s.piece.shape)
    && HasCell(s.piece.shape)
    && !Collides(s.piece, s.board)
  }

  /** Every catalogue piece spawns clear of the walls on an empty board. */
  lemma SpawnOnEmptyBoard(shapeIndex: nat, colorIndex: nat)
    requires shapeIndex < |Shapes| && colorIndex < |Palette|
    ensures !Collides(Spawn(shapeIndex, colorIndex), CreateGrid())
  {
    var p := Spawn(shapeIndex, colorIndex);
    var g := CreateGrid();
    forall i: nat, j: nat | Occupied(p.shape, i, j)
      ensures !Blocked(p, g, i, j)
    {
      assert |p.shape[i]| == |p.shape[0]|;
    }
  }

  /** The game at start: an empty board, a fresh piece and no score. */
  function NewGame(shapeIndex: nat, colorIndex: nat): (s: Game)
    requires shapeIndex < |Shapes| && colorIndex < |Palette|
    ensures Valid(s)
    ensures s.score == 0
    ensures forall r, c :: 0 <= r < Height && 0 <= c < Width ==> s.board[r][c] == Black
  {
    SpawnOnEmptyBoard(shapeIndex, colorIndex);
    Game(CreateGrid(), Spawn(shapeIndex, colorIndex), 0)
  }

  /**
   Moves the piece by (dx, dy) and, if the moved piece collides, moves it back
   by the opposite deltas. A blocked move therefore leaves the piece as it was.
   */
  function TryMove(p: Piece, g: Board, dx: int, dy: int): (q: Piece)
    requires WellFormed(g) && p.y >= 0 && p.y + dy >= 0
    ensures q.shape == p.shape && q.color == p.color && q.y >= 0
    ensures !Collides(p, g) ==> !Collides(q, g)
    ensures Collides(Move(p, dx, dy), g) ==> q == p
    ensures !Collides(Move(p, dx, dy), g) ==> q == Move(p, dx, dy)
  {
    var moved := Move(p, dx, dy);
    if Collides(moved, g) then
      MoveUndo(p, dx, dy);
      Move(moved, -dx, -dy)
    else moved
  }

  /**
   Turns the piece a quarter clockwise and, if the turned piece collides, turns
   it three more quarters, which restores the previous orientation exactly.
   */
  function TryRotate(p: Piece, g: Board): (q: Piece)
    requires WellFormed(g) && p.y >= 0 && WellShaped(p.shape)
    ensures q.x == p.x && q.y == p.y && q.color == p.color
    ensures WellShaped(q.shape) && (HasCell(p.shape) ==> HasCell(q.shape))
    ensures !Collides(p, g) ==> !Collides(q, g)
    ensures Collides(RotatePiece(p), g) ==> q == p
    ensures !Collides(RotatePiece(p), g) ==> q == RotatePiece(p)
  {
    var turned := RotatePiece(p);
    RotateMovesCells(p.shape);
    if Collides(turned, g) then
      ThreeTurnsUndoOne(p.shape);
      RotatePieceTimes(turned, 3)
    else turned
  }

  /**
   Applies the first held key among left, right, down and up, in that order
   of priority; the others are ignored this frame.
   */
  function HandleInput(s: Game, keys: set<string>): (s': Game)
    requires Valid(s)
    ensures Valid(s')
    ensures s'.board == s.board && s'.score == s.score
  {
    var p, g := s.piece, s.board;
    if ArrowLeft in keys then s.(piece := TryMove(p, g, -1, 0))
    else if ArrowRight in keys then s.(piece := TryMove(p, g, 1, 0))
    else if ArrowDown in keys then s.(piece := TryMove(p, g, 0, 1))
    else if ArrowUp in keys then s.(piece := TryRotate(p, g))
    else s
  }

  /**
   Only the highest-priority held key matters, and a frame with no arrow key
   held changes nothing. Left, right and down shift the piece by (-1, 0),
   (1, 0) and (0, 1), up turns it a quarter clockwise, and a result that
   collides is dropped in favour of the piece as it was.
   */
  lemma InputPriority(s: Game, keys: set<string>)
    requires Valid(s)
    ensures ArrowLeft in keys ==>
              HandleInput(s, keys).piece == (if Collides(Move(s.piece, -1, 0), s.board) then s.piece else Move(s.piece, -1, 0))
    ensures ArrowLeft !in keys && ArrowRight in keys ==>
              HandleInput(s, keys).piece == (if Collides(Move(s.piece, 1, 0), s.board) then s.piece else Move(s.piece, 1, 0))
    ensures ArrowLeft !in keys && ArrowRight !in keys && ArrowDown in keys ==>
              HandleInput(s, keys).piece == (if Collides(Move(s.piece, 0, 1), s.board) then s.piece else Move(s.piece, 0, 1))
    ensures ArrowLeft !in keys && ArrowRight !in keys && ArrowDown !in keys && ArrowUp in keys ==>
              HandleInput(s, keys).piece == (if Collides(RotatePiece(s.piece), s.board) then s.piece else RotatePiece(s.piece))
    ensures ArrowLeft in keys ==> HandleInput(s, keys) == HandleInput(s, {ArrowLeft})
    ensures ArrowLeft !in keys && ArrowRight in keys ==> HandleInput(s, keys) == HandleInput(s, {ArrowRight})
    ensures ArrowLeft !in keys && ArrowRight !in keys && ArrowDown in keys ==>
              HandleInput(s, keys) == HandleInput(s, {ArrowDown})
    ensures ArrowLeft !in keys && ArrowRight !in keys && ArrowDown !in keys && ArrowUp in keys ==>
              HandleInput(s, keys) == HandleInput(s, {ArrowUp})
    ensures ArrowLeft !in keys && ArrowRight !in keys && ArrowDown !in keys && ArrowUp !in keys ==>
              HandleInput(s, keys) == s
  {
  }

  /** The active piece cannot fall one more row: a gravity tick locks it. */
  ghost predicate Lands(s: Game)
    requires Valid(s)
  {
    Collides(Move(s.piece, 0, 1), s.board)
  }

  /** The board with the active piece stamped into it. */
  ghost function Locked(s: Game): (g: Board)
    requires Valid(s)
    ensures WellFormed(g)
    ensures Collides(s.piece, g)
  {
    FreeFits(s.piece, s.board);
    MergedPieceCollides(s.board, s.piece);
    Merge(s.board, s.piece)
  }

  /**
   Locks the active piece where it stands: the board becomes the locked board
   with its full rows cleared, the score grows by 100 per cleared row, and the
   next piece appears. The game is over exactly when that piece collides.
   */
  function Lock(s: Game, shapeIndex: nat, colorIndex: nat): (r: Outcome)
    requires Valid(s) && shapeIndex < |Shapes| && colorIndex < |Palette|
    ensures WellFormed(r.game.board)
    ensures r.Running? ==> Valid(r.game)
    ensures r.game.score == s.score + PointsPerRow * CountFull(Locked(s))
    ensures r.game.board == BlankRows(CountFull(Locked(s))) + NonFullRows(Locked(s))
    ensures r.game.piece == Spawn(shapeIndex, colorIndex)
    ensures r.GameOver? <==> Collides(Spawn(shapeIndex, colorIndex), r.game.board)
  {
    FreeFits(s.piece, s.board);
    var (cleared, g') := RemoveFullRows(Merge(s.board, s.piece));
    var next := Spawn(shapeIndex, colorIndex);
    var s' := Game(g', next, s.score + cleared * PointsPerRow);
    if Collides(next, g') then GameOver(s') else Running(s')
  }

  /**
   A gravity tick: the piece falls one row if it can, and otherwise it is
   moved back and locked.
   */
  function Gravity(s: Game, shapeIndex: nat, colorIndex: nat): (r: Outcome)
    requires Valid(s) && shapeIndex < |Shapes| && colorIndex < |Palette|
    ensures r.Running? ==> Valid(r.game)
    ensures !Lands(s) ==> r == Running(s.(piece := Move(s.piece, 0, 1)))
    ensures Lands(s) ==> r == Lock(s, shapeIndex, colorIndex)
    ensures r.GameOver? ==> Lands(s)
  {
    var fallen := Move(s.piece, 0, 1);
    if !Collides(fallen, s.board) then
      Running(s.(piece := fallen))
    else
      var back := Move(fallen, 0, -1);
      MoveUndo(s.piece, 0, 1);
      assert s.(piece := back) == s;
      Lock(s.(piece := back), shapeIndex, colorIndex)
  }

  /** One frame: input first, then gravity if this frame carries a gravity tick. */
  function Frame(s: Game, keys: set<string>, gravityTick: bool, shapeIndex: nat, colorIndex: nat): (r: Outcome)
    requires Valid(s) && shapeIndex < |Shapes| && colorIndex < |Palette|
    ensures r.Running? ==> Valid(r.game)
    ensures r.game.score >= s.score
    ensures !gravityTick ==> r.Running? && r.game.board == s.board && r.game.score == s.score
    ensures r.GameOver? ==> gravityTick
    ensures WellFormed(r.game.board)
    ensures !gravityTick ==> r.game.piece == HandleInput(s, keys).piece
    ensures gravityTick && !Lands(HandleInput(s, keys)) ==> r.game.piece == Move(HandleInput(s, keys).piece, 0, 1)
    ensures r.GameOver? <==> gravityTick && Lands(HandleInput(s, keys)) && Collides(Spawn(shapeIndex, colorIndex), r.game.board)
  {
    var s1 := HandleInput(s, keys);
    if gravityTick then Gravity(s1, shapeIndex, colorIndex) else Running(s1)
  }

  /** What the environment supplies to one frame: held keys, the gravity tick, and the next piece's draw. */
  datatype FrameInput = FrameInput(keys: set<string>, gravityTick: bool, shapeIndex: nat, colorIndex: nat)

  predicate Drawable(f: FrameInput) {
    f.shapeIndex < |Shapes| && f.colorIndex < |Palette|
  }

  /**
   Runs frames in order until the inputs run out or the game ends. While the
   game runs the invariant holds, so the active piece never collides; the
   score never decreases.
   */
  function Play(s: Game, frames: seq<FrameInput>): (r: Outcome)
    requires Valid(s)
    requires forall k :: 0 <= k < |frames| ==> Drawable(frames[k])
    ensures r.Running? ==> Valid(r.game)
    ensures r.game.score >= s.score
    ensures r.GameOver? ==> exists k :: 0 <= k < |frames| && frames[k].gravityTick
    decreases |frames|
  {
    if |frames| == 0 then Running(s)
    else
      var f := frames[0];
      assert Drawable(f);
      match Frame(s, f.keys, f.gravityTick, f.shapeIndex, f.colorIndex)
      case GameOver(s') => GameOver(s')
      case Running(s') =>
        var r := Play(s', frames[1..]);
        assert r.GameOver? ==> exists k :: 0 <= k < |frames[1..]| && frames[1..][k].gravityTick;
        assert forall k :: 0 <= k < |frames[1..]| ==> frames[1..][k] == frames[k + 1];
        r
  }
}

=== FILE: grid.dfy ===
/**
 The playing field: a fixed-size matrix of colours in which `Black` marks an
 empty cell. Rows are indexed top to bottom, columns left to right.
 */
module Grid {

  /** Board width in cells. */
  const Width: nat := 10
  /** Board height in cells. */
  const Height: nat := 20

  /** The eight named colours of the game; `Black` is the empty sentinel. */
  datatype Color = Black | White | Cyan | Yellow | Magenta | Red | Green | Blue | Orange

  type Row = seq<Color>
  type Board = seq<Row>

  /** The palette pieces are drawn from, in catalogue order. It leaves out `Black`. */
  const Palette: seq<Color> := [Cyan, Yellow, Magenta, Red, Green, Blue, Orange]

  /** A board of the game's fixed dimensions. */
  ghost predicate WellFormed(g: Board) {
    |g| == Height && forall r :: 0 <= r < |g| ==> |g[r]| == Width
  }

  /** A row holding nothing but the empty sentinel. */
  ghost predicate IsBlank(row: Row) {
    forall c :: 0 <= c < |row| ==> row[c] == Black
  }

  /** A row with no empty cell: it is eligible for clearing. */
  predicate IsFull(row: Row) {
    forall c :: 0 <= c < |row| ==> row[c] != Black
  }

  /** A fresh empty row of the board's width. */
  function BlankRow(): (row: Row)
    ensures |row| == Width && IsBlank(row)
    ensures !IsFull(row)
  {
    var row := seq(Width, _ => Black);
    assert row[0] == Black;
    row
  }

  /** The board at game start. */
  function CreateGrid(): (g: Board)
    ensures WellFormed(g)
    ensures forall r, c :: 0 <= r < Height && 0 <= c < Width ==> g[r][c] == Black
  {
    seq(Height, _ => BlankRow())
  }

  /** Writes one cell and nothing else. */
  function SetCell(g: Board, r: nat, c: nat, color: Color): (g': Board)
    requires WellFormed(g) && r < Height && c < Width
    ensures WellFormed(g')
    ensures g'[r][c] == color
    ensures forall r', c' :: 0 <= r' < Height && 0 <= c' < Width && (r', c') != (r, c) ==> g'[r'][c'] == g[r'][c']
  {
    g[r := g[r][c := color]]
  }
}

=== FILE: line_clear.dfy ===
/**
 Clearing completed rows. The game finds the full rows top to bottom and, for
 each in turn, deletes it and pushes a fresh empty row on top. This module
 proves that this procedure yields k empty rows followed by the rows that were
 not full, in their original order.
 */
module LineClear {
  import opened Grid

  /** Indices of the full rows at or below row `i`, in ascending order. */
  function FullRowIndices(g: Board, i: nat): (rows: seq<nat>)
    requires i <= |g|
    ensures forall k :: 0 <= k < |rows| ==> i <= rows[k] < |g|
    ensures forall j :: j in rows <==> i <= j < |g| && IsFull(g[j])
    ensures forall k, l :: 0 <= k < l < |rows| ==> rows[k] < rows[l]
    decreases |g| - i
  {
    if i == |g| then []
    else (if IsFull(g[i]) then [i] else []) + FullRowIndices(g, i + 1)
  }

  /** Number of full rows, counted independently of the index list. */
  function CountFull(g: Board): (n: nat)
    ensures n <= |g|
    ensures n == 0 <==> forall r :: 0 <= r < |g| ==> !IsFull(g[r])
  {
    if |g| == 0 then 0
    else
      assert forall r :: 1 <= r < |g| ==> g[r] == g[1..][r - 1];
      (if IsFull(g[0]) then 1 else 0) + CountFull(g[1..])
  }

  /** The rows that are not full, in their original order. */
  function NonFullRows(g: Board): (kept: Board)
    ensures |kept| == |g| - CountFull(g)
    ensures forall k :: 0 <= k < |kept| ==> !IsFull(kept[k]) && kept[k] in g
  {
    if |g| == 0 then []
    else (if IsFull(g[0]) then [] else [g[0]]) + NonFullRows(g[1..])
  }

  /** `k` fresh empty rows. */
  function BlankRows(k: nat): (rows: Board)
    ensures |rows| == k
    ensures forall r :: 0 <= r < k ==> rows[r] == BlankRow()
  {
    seq(k, _ => BlankRow())
  }

  /** One step of the clearing loop: delete row `i`, then insert an empty row at the top. */
  function DeleteAndInsert(g: Board, i: nat): (g': Board)
    requires i < |g|
    ensures |g'| == |g|
    ensures g'[0] == BlankRow()
    ensures forall r :: 0 < r <= i ==> g'[r] == g[r - 1]
    ensures forall r :: i < r < |g| ==> g'[r] == g[r]
  {
    [BlankRow()] + g[..i] + g[i + 1..]
  }

  /** The clearing loop run over the given row indices, first to last. */
  function ClearLoop(g: Board, rows: seq<nat>): (g': Board)
    requires forall k :: 0 <= k < |rows| ==> rows[k] < |g|
    ensures |g'| == |g|
    decreases |rows|
  {
    if |rows| == 0 then g
    else ClearLoop(DeleteAndInsert(g, rows[0]), rows[1..])
  }

  /** Rows of `a`, numbered from `off`, whose numbers are not listed in `rows`. */
  function Without(a: Board, rows: seq<nat>, off: int): Board {
    if |a| == 0 then []
    else (if off in rows then [] else [a[0]]) + Without(a[1..], rows, off + 1)
  }

  /** Filtering two stacked boards filters each, the lower one offset by the height of the upper. */
  lemma {:induction false} WithoutAppend(a: Board, b: Board, rows: seq<nat>, off: int)
    ensures Without(a + b, rows, off) == Without(a, rows, off) + Without(b, rows, off + |a|)
    decreases |a|
  {
    if |a| == 0 {
      assert a + b == b;
    } else {
      assert (a + b)[1..] == a[1..] + b;
      WithoutAppend(a[1..], b, rows, off + 1);
    }
  }

  /** A board none of whose row indices is listed passes the filter unchanged. */
  lemma {:induction false} WithoutNone(a: Board, rows: seq<nat>, off: int)
    requires forall k :: 0 <= k < |rows| ==> !(off <= rows[k] < off + |a|)
    ensures Without(a, rows, off) == a
    decreases |a|
  {
    if |a| > 0 {
      WithoutNone(a[1..], rows, off + 1);
      assert [a[0]] + a[1..] == a;
    }
  }

  /** `Without` only looks at the listed numbers that fall in its own range. */
  lemma {:induction false} WithoutSameRange(a: Board, rows: seq<nat>, rows': seq<nat>, off: int)
    requires forall j :: off <= j < off + |a| ==> (j in rows <==> j in rows')
    ensures Without(a, rows, off) == Without(a, rows', off)
    decreases |a|
  {
    if |a| > 0 {
      WithoutSameRange(a[1..], rows, rows', off + 1);
    }
  }

  /** Dropping the numbers that mark full rows leaves exactly the non-full rows. */
  lemma {:induction false} WithoutFullIsNonFull(a: Board, rows: seq<nat>, off: int)
    requires forall j :: 0 <= j < |a| ==> (off + j in rows <==> IsFull(a[j]))
    ensures Without(a, rows, off) == NonFullRows(a)
    decreases |a|
  {
    if |a| > 0 {
      assert off + 0 in rows <==> IsFull(a[0]);
      forall j | 0 <= j < |a[1..]|
        ensures (off + 1 + j in rows <==> IsFull(a[1..][j]))
      {
        assert a[1..][j] == a[j + 1];
      }
      WithoutFullIsNonFull(a[1..], rows, off + 1);
    }
  }

  /** After one loop step, the rows below the deleted one are numbered as before. */
  lemma {:induction false} WithoutAfterStep(g: Board, i: nat, rest: seq<nat>)
    requires i < |g|
    requires forall k :: 0 <= k < |rest| ==> i < rest[k]
    ensures Without(DeleteAndInsert(g, i), rest, 0) == [BlankRow()] + g[..i] + Without(g[i + 1..], rest, i + 1)
  {
    var pre := [BlankRow()] + g[..i];
    assert DeleteAndInsert(g, i) == pre + g[i + 1..];
    WithoutAppend(pre, g[i + 1..], rest, 0);
    WithoutNone(pre, rest, 0);
  }

  /** A single row whose index is listed is dropped by the filter. */
  lemma {:induction false} WithoutListed(row: Row, rows: seq<nat>, n: nat)
    requires n in rows
    ensures Without([row], rows, n) == []
  {
    assert [row][1..] == [];
  }

  /** Above the first listed number, membership in the list and in its tail agree. */
  lemma {:induction false} TailMembership(rows: seq<nat>, lo: int)
    requires |rows| > 0 && rows[0] < lo
    ensures forall j :: lo <= j ==> (j in rows <==> j in rows[1..])
  {
    forall j | lo <= j
      ensures j in rows <==> j in rows[1..]
    {
      if j in rows {
        var k :| 0 <= k < |rows| && rows[k] == j;
        assert rows[1..][k - 1] == j;
      }
    }
  }

  /** Before the step, row `i` is the first listed one and is dropped. */
  lemma {:induction false} WithoutAtStep(g: Board, rows: seq<nat>)
    requires |rows| > 0 && rows[0] < |g|
    requires forall k :: 0 < k < |rows| ==> rows[0] < rows[k]
    ensures Without(g, rows, 0) == g[..rows[0]] + Without(g[rows[0] + 1..], rows[1..], rows[0] + 1)
  {
    var i := rows[0];
    var a, b := g[..i], g[i + 1..];
    assert g == a + ([g[i]] + b);
    calc {
      Without(g, rows, 0);
      { WithoutAppend(a, [g[i]] + b, rows, 0); }
      Without(a, rows, 0) + Without([g[i]] + b, rows, i);
      { WithoutNone(a, rows, 0); }
      a + Without([g[i]] + b, rows, i);
      { WithoutAppend([g[i]], b, rows, i); WithoutListed(g[i], rows, i); }
      a + Without(b, rows, i + 1);
      { TailMembership(rows, i + 1); WithoutSameRange(b, rows, rows[1..], i + 1); }
      a + Without(b, rows[1..], i + 1);
    }
  }

  /**
   The heart of the proof: running the loop over strictly ascending indices
   produces one empty row per index, followed by the rows not listed, in order.
   Deleting row `i` leaves every later index pointing at the same row, which
   is why ascending order works.
   */
  lemma {:induction false} ClearLoopIsFilter(g: Board, rows: seq<nat>)
    requires forall k :: 0 <= k < |rows| ==> rows[k] < |g|
    requires forall k, l :: 0 <= k < l < |rows| ==> rows[k] < rows[l]
    ensures ClearLoop(g, rows) == BlankRows(|rows|) + Without(g, rows, 0)
    decreases |rows|
  {
    if |rows| == 0 {
      WithoutNone(g, rows, 0);
    } else {
      var i := rows[0];
      var rest := rows[1..];
      ClearLoopIsFilter(DeleteAndInsert(g, i), rest);
      WithoutAfterStep(g, i, rest);
      WithoutAtStep(g, rows);
      assert BlankRows(|rest|) + [BlankRow()] == BlankRows(|rows|);
    }
  }

  /** The collected full-row indices from row `i` on are as many as the full rows from `i` on. */
  lemma {:induction false} FullRowCount(g: Board, i: nat)
    requires i <= |g|
    ensures |FullRowIndices(g, i)| == CountFull(g[i..])
    decreases |g| - i
  {
    if i < |g| {
      FullRowCount(g, i + 1);
      assert g[i..][1..] == g[i + 1..];
    }
  }

  /** Every row is either full or kept, so the two counts add up to the height. */
  lemma {:induction false} CountSplit(g: Board)
    ensures CountFull(g) + |NonFullRows(g)| == |g|
  {
    if |g| > 0 {
      CountSplit(g[1..]);
    }
  }

  /** A board with no full row keeps every row. */
  lemma {:induction false} NoFullRowsKept(g: Board)
    requires forall r :: 0 <= r < |g| ==> !IsFull(g[r])
    ensures NonFullRows(g) == g
  {
    if |g| > 0 {
      assert forall r :: 0 <= r < |g[1..]| ==> g[1..][r] == g[r + 1];
      NoFullRowsKept(g[1..]);
      assert [g[0]] + g[1..] == g;
    }
  }

  /** The clearing loop, run over the full rows found top to bottom, gives the declarative result. */
  lemma {:induction false} LoopMatchesFilter(g: Board)
    ensures |FullRowIndices(g, 0)| == CountFull(g)
    ensures ClearLoop(g, FullRowIndices(g, 0)) == BlankRows(CountFull(g)) + NonFullRows(g)
  {
    var rows := FullRowIndices(g, 0);
    ClearLoopIsFilter(g, rows);
    WithoutFullIsNonFull(g, rows, 0);
    FullRowCount(g, 0);
    assert g[0..] == g;
  }

  /** Shape of the declarative result: blank rows on top, non-full rows below, height kept. */
  lemma {:induction false} ClearedBoard(g: Board)
    ensures |BlankRows(CountFull(g)) + NonFullRows(g)| == |g|
    ensures forall r :: 0 <= r < CountFull(g) ==> IsBlank((BlankRows(CountFull(g)) + NonFullRows(g))[r])
    ensures forall r :: CountFull(g) <= r < |g| ==> !IsFull((BlankRows(CountFull(g)) + NonFullRows(g))[r])
    ensures CountFull(g) == 0 ==> BlankRows(CountFull(g)) + NonFullRows(g) == g
    ensures WellFormed(g) ==> WellFormed(BlankRows(CountFull(g)) + NonFullRows(g))
  {
    var k, kept := CountFull(g), NonFullRows(g);
    var out := BlankRows(k) + kept;
    CountSplit(g);
    assert forall r :: 0 <= r < k ==> out[r] == BlankRow();
    assert forall r :: k <= r < |g| ==> out[r] == kept[r - k];
    if k == 0 {
      NoFullRowsKept(g);
      assert out == kept;
    }
  }

  /**
   Clears the full rows of the board, returning how many were cleared and the
   new board. The board keeps its height; its top `count` rows are empty and
   the rest are the rows that were not full, in their original order.
   */
  function RemoveFullRows(g: Board): (res: (nat, Board))
    ensures res.0 == CountFull(g)
    ensures res.1 == BlankRows(res.0) + NonFullRows(g)
    ensures |res.1| == |g|
    ensures forall r :: 0 <= r < res.0 ==> IsBlank(res.1[r])
    ensures forall r :: res.0 <= r < |g| ==> !IsFull(res.1[r])
    ensures res.0 == 0 ==> res.1 == g
    ensures WellFormed(g) ==> WellFormed(res.1)
  {
    var rows := FullRowIndices(g, 0);
    LoopMatchesFilter(g);
    ClearedBoard(g);
    (|rows|, ClearLoop(g, rows))
  }

  /** A board just cleared has no full row left, so clearing it again changes nothing. */
  lemma {:induction false} ClearIsIdempotent(g: Board)
    ensures RemoveFullRows(RemoveFullRows(g).1) == (0, RemoveFullRows(g).1)
  {
    var (k, g') := RemoveFullRows(g);
    forall r | 0 <= r < |g'|
      ensures !IsFull(g'[r])
    {
      if r < k {
        assert g'[r][0] == Black;
      }
    }
  }

  /** The full rows of two stacked boards are those of each. */
  lemma {:induction false} CountFullAppend(a: Board, b: Board)
    ensures CountFull(a + b) == CountFull(a) + CountFull(b)
    decreases |a|
  {
    if |a| == 0 {
      assert a + b == b;
    } else {
      assert (a + b)[1..] == a[1..] + b;
      CountFullAppend(a[1..], b);
    }
  }

  /** The kept rows of two stacked boards are the kept rows of the upper followed by those of the lower. */
  lemma {:induction false} NonFullAppend(a: Board, b: Board)
    ensures NonFullRows(a + b) == NonFullRows(a) + NonFullRows(b)
    decreases |a|
  {
    if |a| == 0 {
      assert a + b == b;
    } else {
      assert (a + b)[1..] == a[1..] + b;
      NonFullAppend(a[1..], b);
    }
  }

  /** A non-full row `r` is found among the kept rows after the full rows above it are dropped. */
  lemma {:induction false} KeptRowPosition(g: Board, r: nat)
    requires r < |g| && !IsFull(g[r])
    ensures r - CountFull(g[..r]) < |NonFullRows(g)|
    ensures NonFullRows(g)[r - CountFull(g[..r])] == g[r]
  {
    var above, below := g[..r], g[r + 1..];
    assert g == above + ([g[r]] + below);
    NonFullAppend(above, [g[r]] + below);
    NonFullAppend([g[r]], below);
    assert NonFullRows([g[r]]) == [g[r]] by {
      assert [g[r]][1..] == [];
    }
    assert |NonFullRows(above)| == r - CountFull(above);
  }

  /** The full rows of a board are those above a non-full row plus those below it. */
  lemma {:induction false} CountAroundRow(g: Board, r: nat)
    requires r < |g| && !IsFull(g[r])
    ensures CountFull(g) == CountFull(g[..r]) + CountFull(g[r + 1..])
  {
    assert g == g[..r] + ([g[r]] + g[r + 1..]);
    CountFullAppend(g[..r], [g[r]] + g[r + 1..]);
    CountFullAppend([g[r]], g[r + 1..]);
    assert [g[r]][1..] == [];
  }

  /** A surviving row's place in the declarative result: below the blanks, at its kept position. */
  lemma {:induction false} SurvivorIndex(g: Board, r: nat)
    requires r < |g| && !IsFull(g[r])
    ensures r + CountFull(g[r + 1..]) < |BlankRows(CountFull(g)) + NonFullRows(g)|
    ensures (BlankRows(CountFull(g)) + NonFullRows(g))[r + CountFull(g[r + 1..])] == g[r]
  {
    KeptRowPosition(g, r);
    CountAroundRow(g, r);
  }

  /**
   Every row that survives a clear moves down by the number of full rows
   beneath it; a row with no full row beneath it stays where it was.
   */
  lemma {:induction false} SurvivorShift(g: Board, r: nat)
    requires r < |g| && !IsFull(g[r])
    ensures r + CountFull(g[r + 1..]) < |g|
    ensures RemoveFullRows(g).1[r + CountFull(g[r + 1..])] == g[r]
  {
    SurvivorIndex(g, r);
  }
}

=== FILE: tetromino.dfy ===
/**
 Falling pieces: the shape catalogue, spawning, translation and clockwise
 rotation. A shape is a matrix of occupancy flags; a piece places its shape's
 top-left corner at column `x`, row `y` of the board.
 */
module Tetromino {
  import opened Grid

  type Shape = seq<seq<bool>>

  datatype Piece = Piece(shape: Shape, color: Color, x: int, y: int)

  /** The seven tetromino layouts, in catalogue order: I, O, T, L, J, Z, S. */
  const Shapes: seq<Shape> := [
    [[true, true, true, true]],
    [[true, true], [true, true]],
    [[true, true, true], [false, true, false]],
    [[true, true, true], [true, false, false]],
    [[true, true, true], [false, false, true]],
    [[true, true, false], [false, true, true]],
    [[false, true, true], [true, true, false]]
  ]

  /** A non-empty rectangular matrix. */
  ghost predicate WellShaped(s: Shape) {
    |s| > 0 && |s[0]| > 0 && forall i :: 0 <= i < |s| ==> |s[i]| == |s[0]|
  }

  /** Whether cell (i, j) of the shape is occupied; false outside the matrix. */
  predicate Occupied(s: Shape, i: int, j: int) {
    0 <= i < |s| && 0 <= j < |s[i]| && s[i][j]
  }

  /** The shape has at least one occupied cell. */
  ghost predicate HasCell(s: Shape) {
    exists i, j :: Occupied(s, i, j)
  }

  /** Number of occupied cells in one row. */
  function RowCells(row: seq<bool>): (n: nat)
    ensures n <= |row|
    ensures n == 0 <==> forall j :: 0 <= j < |row| ==> !row[j]
  {
    if |row| == 0 then 0 else (if row[0] then 1 else 0) + RowCells(row[1..])
  }

  /** Number of occupied cells in a shape. */
  function CellCount(s: Shape): (n: nat)
    ensures n == 0 <==> !HasCell(s)
  {
    if |s| == 0 then 0
    else
      var n := RowCells(s[0]) + CellCount(s[1..]);
      assert forall i, j :: 0 < i < |s| ==> Occupied(s, i, j) == Occupied(s[1..], i - 1, j);
      assert HasCell(s[1..]) ==> HasCell(s) by {
        if HasCell(s[1..]) {
          var i, j :| Occupied(s[1..], i, j);
          assert Occupied(s, i + 1, j);
        }
      }
      assert RowCells(s[0]) != 0 ==> HasCell(s) by {
        if RowCells(s[0]) != 0 {
          var j :| 0 <= j < |s[0]| && s[0][j];
          assert Occupied(s, 0, j);
        }
      }
      assert HasCell(s) ==> RowCells(s[0]) != 0 || HasCell(s[1..]) by {
        if HasCell(s) {
          var i, j :| Occupied(s, i, j);
          if i > 0 {
            assert Occupied(s[1..], i - 1, j);
          }
        }
      }
      n
  }

  /** Length of the shortest row, i.e. how many tuples `zip` produces from the rows. */
  function ZipLength(s: Shape): (w: nat)
    ensures |s| == 0 ==> w == 0
    ensures forall i :: 0 <= i < |s| ==> w <= |s[i]|
    ensures |s| > 0 ==> exists i :: 0 <= i < |s| && w == |s[i]|
    ensures WellShaped(s) ==> w == |s[0]|
  {
    if |s| == 0 then 0
    else if |s| == 1 then |s[0]|
    else
      var rest := ZipLength(s[1..]);
      assert forall i :: 1 <= i < |s| ==> s[i] == s[1..][i - 1];
      if |s[0]| <= rest then |s[0]| else rest
  }

  /**
   Clockwise quarter turn: the transpose of the vertically reversed matrix.
   Row i of the result is column i of the shape read bottom to top; like
   `zip`, it stops at the shortest row.
   */
  function Rotate(s: Shape): (r: Shape)
    ensures |r| == ZipLength(s)
    ensures forall i :: 0 <= i < |r| ==> |r[i]| == |s|
    ensures WellShaped(s) ==> WellShaped(r) && |r| == |s[0]| && |r[0]| == |s|
  {
    var h := |s|;
    seq(ZipLength(s), i requires 0 <= i < ZipLength(s) => seq(h, j requires 0 <= j < h => s[h - 1 - j][i]))
  }

  /** A shape turned `n` quarter turns clockwise. */
  function RotateTimes(s: Shape, n: nat): Shape
    decreases n
  {
    if n == 0 then s else RotateTimes(Rotate(s), n - 1)
  }

  /** A half turn reverses both the row order and the column order. */
  lemma HalfTurn(s: Shape)
    requires WellShaped(s)
    ensures WellShaped(Rotate(Rotate(s)))
    ensures |Rotate(Rotate(s))| == |s| && |Rotate(Rotate(s))[0]| == |s[0]|
    ensures forall i, j :: 0 <= i < |s| && 0 <= j < |s[0]| ==>
      Rotate(Rotate(s))[i][j] == s[|s| - 1 - i][|s[0]| - 1 - j]
  {
    var r1 := Rotate(s);
    var r2 := Rotate(r1);
    forall i, j | 0 <= i < |s| && 0 <= j < |s[0]|
      ensures r2[i][j] == s[|s| - 1 - i][|s[0]| - 1 - j]
    {
      calc {
        r2[i][j];
        r1[|r1| - 1 - j][i];
        s[|s| - 1 - i][|s[0]| - 1 - j];
      }
    }
  }

  /** Four quarter turns give back the original shape. */
  lemma FullTurn(s: Shape)
    requires WellShaped(s)
    ensures RotateTimes(s, 4) == s
  {
    var r2 := Rotate(Rotate(s));
    HalfTurn(s);
    HalfTurn(r2);
    var r4 := Rotate(Rotate(r2));
    ReverseTwice(s, r2, r4);
    assert RotateTimes(s, 4) == RotateTimes(r2, 2) == r4;
  }

  /** Reversing rows and columns twice over gives back the original matrix. */
  lemma ReverseTwice(s: Shape, t: Shape, u: Shape)
    requires WellShaped(s) && WellShaped(t)
    requires |t| == |s| && |t[0]| == |s[0]| && |u| == |t|
    requires forall i :: 0 <= i < |u| ==> |u[i]| == |t[0]|
    requires forall i, j :: 0 <= i < |s| && 0 <= j < |s[0]| ==> t[i][j] == s[|s| - 1 - i][|s[0]| - 1 - j]
    requires forall i, j :: 0 <= i < |t| && 0 <= j < |t[0]| ==> u[i][j] == t[|t| - 1 - i][|t[0]| - 1 - j]
    ensures u == s
  {
    forall i | 0 <= i < |s|
      ensures u[i] == s[i]
    {
      forall j | 0 <= j < |s[i]|
        ensures u[i][j] == s[i][j]
      {
        assert u[i][j] == t[|s| - 1 - i][|s[0]| - 1 - j];
      }
    }
  }

  /** Three further quarter turns undo one: this is how a blocked rotation is reverted. */
  lemma ThreeTurnsUndoOne(s: Shape)
    requires WellShaped(s)
    ensures RotateTimes(Rotate(s), 3) == s
  {
    FullTurn(s);
    assert RotateTimes(s, 4) == RotateTimes(Rotate(s), 3);
  }

  /** A quarter turn carries cell (i, j) of an h-row shape to cell (j, h - 1 - i). */
  lemma RotateMovesCells(s: Shape)
    requires WellShaped(s)
    ensures forall i, j :: 0 <= i < |s| && 0 <= j < |s[0]| ==> Rotate(s)[j][|s| - 1 - i] == s[i][j]
    ensures forall i, j :: Occupied(s, i, j) ==> Occupied(Rotate(s), j, |s| - 1 - i)
    ensures HasCell(s) ==> HasCell(Rotate(s))
  {
    var r := Rotate(s);
    forall i, j | 0 <= i < |s| && 0 <= j < |s[0]|
      ensures r[j][|s| - 1 - i] == s[i][j]
    {
      assert |s| - 1 - (|s| - 1 - i) == i;
    }
    if HasCell(s) {
      var i, j :| Occupied(s, i, j);
      assert Occupied(r, j, |s| - 1 - i);
    }
  }

  /** Translation by (dx, dy); it never checks the board. */
  function Move(p: Piece, dx: int, dy: int): (q: Piece)
    ensures q.shape == p.shape && q.color == p.color
    ensures q.x - dx == p.x && q.y - dy == p.y
  {
    p.(x := p.x + dx, y := p.y + dy)
  }

  /** Moving back by the opposite deltas restores the piece exactly. */
  lemma MoveUndo(p: Piece, dx: int, dy: int)
    ensures Move(Move(p, dx, dy), -dx, -dy) == p
  {
  }

  /** Turns the piece's shape a quarter clockwise in place. */
  function RotatePiece(p: Piece): (q: Piece)
    ensures q.color == p.color && q.x == p.x && q.y == p.y
    ensures WellShaped(p.shape) ==> WellShaped(q.shape) && |q.shape| == |p.shape[0]| && |q.shape[0]| == |p.shape|
  {
    p.(shape := Rotate(p.shape))
  }

  /** The piece turned `n` quarter turns clockwise. */
  function RotatePieceTimes(p: Piece, n: nat): (q: Piece)
    ensures q == p.(shape := RotateTimes(p.shape, n))
    decreases n
  {
    if n == 0 then p else RotatePieceTimes(RotatePiece(p), n - 1)
  }

  /** Facts about one catalogue entry: its size, and that it has exactly four cells. */
  ghost predicate CatalogueEntry(s: Shape) {
    WellShaped(s) && |s| <= 2 && |s[0]| <= 4 && CellCount(s) == 4
  }

  /** Every catalogue entry is a well-shaped tetromino of at most 2 rows and 4 columns. */
  lemma CatalogueShapes(k: nat)
    requires k < |Shapes|
    ensures CatalogueEntry(Shapes[k])
    ensures HasCell(Shapes[k])
  {
    var s := Shapes[k];
    assert WellShaped(s) && |s| <= 2 && |s[0]| <= 4;
    if k == 0 {
      assert CellCount(s) == RowCells(s[0]) == 4;
    } else {
      TwoRowCount(s);
      TwoRowCells(k);
    }
  }

  /** A two-row shape holds the cells of its first row plus those of its second. */
  lemma {:induction false} TwoRowCount(s: Shape)
    requires |s| == 2
    ensures CellCount(s) == RowCells(s[0]) + RowCells(s[1])
  {
    assert s[1..][1..] == [];
  }

  /** Each two-row catalogue entry has four cells between its rows. */
  lemma TwoRowCells(k: nat)
    requires 0 < k < |Shapes|
    ensures |Shapes[k]| == 2 && RowCells(Shapes[k][0]) + RowCells(Shapes[k][1]) == 4
  {
    var s := Shapes[k];
    if k == 2 || k == 3 || k == 4 {
      assert RowCells(s[0]) == 3 && RowCells(s[1]) == 1;
    } else {
      assert RowCells(s[0]) == 2 && RowCells(s[1]) == 2;
    }
  }

  /**
   A new piece: catalogue shape `shapeIndex` and palette colour `colorIndex`
   (drawn at random by the game), centred horizontally in the top row.
   */
  function Spawn(shapeIndex: nat, colorIndex: nat): (p: Piece)
    requires shapeIndex < |Shapes| && colorIndex < |Palette|
    ensures p.shape == Shapes[shapeIndex] && p.color == Palette[colorIndex]
    ensures p.color != Black
    ensures CatalogueEntry(p.shape) && HasCell(p.shape)
    ensures p.y == 0
    ensures 0 <= p.x && p.x + |p.shape[0]| <= Width
    ensures 0 <= p.x - (Width - (p.x + |p.shape[0]|)) <= 1
  {
    CatalogueShapes(shapeIndex);
    var s := Shapes[shapeIndex];
    Piece(s, Palette[colorIndex], Width / 2 - |s[0]| / 2, 0)
  }
}
